=== FILE: README.md ===
# AI Trend Scout page logic, in Dafny

The AI Trend Scout front page (`frontend/app/page.tsx`) shows a snapshot of
trending items from five sources and offers a newsletter subscription. This
project models the logic written inline in that React component:

- **The item normaliser** (`Normalizer`, over `Json` and `VideoId`). One raw JSON
  item and a source id become a display record `Post(url, title, author,
  thumbnail, stars)`. This goes through a single-level `json` unwrap
  (`item.json || item`) and JavaScript `||` fallback chains. These chains use
  JavaScript truthiness, so `""`, `0`, `false`, `null` and absent properties all
  fall through. The video thumbnail uses the regular expression `/v=([^&]+)/`.
  The model states it as a leftmost-match search plus a greedy run.
- **The layout selector** (`Layout`). `renderCards` shows the first five items
  of `devto` and `youtube` as cards. `renderList` shows the first five items of
  `reddit` and `hackernews` as one ranked column. It shows the first ten items of
  `github` as two ranked columns (ranks 1–5 and 6–10). The page renders the five
  sources in a fixed order once loading has finished.
- **The source registry** (`Registry`). It holds each source's colour gradient,
  icon, caption and capitalised heading, and which template renders it.
- **The subscription controller** (`Subscription`). It models the email field,
  the daily/weekly switch and the subscribe handler. It also models the status
  line that every submit clears again 3000 ms later. Time is an abstract clock.
  The subscriber store's answer is an input boolean, and the rows sent to the
  store are logged.

`NormalizerLaws` and `LayoutLaws` hold the properties proved about the first
two parts. Each `||` chain is related to an independent reference: an ordered
accessor table of candidate field names (`Normalizer.TableNormalize`, through
`Json.FirstTruthy`).

Two points of the code's behaviour are easy to misread:

- The fallback chains take the first **truthy** candidate, not the first
  non-null one. An empty `url` string therefore falls through to `link`, and a
  star count of `0` is shown as no stars.
- Section headings capitalise the source id and nothing more, giving
  `Devto`, `Youtube`, `Github`, `Reddit` and `Hackernews`.

The normaliser computes all five fields for every template. Each template shows
only some of them: cards use url, title, author and thumbnail; the `github`
list uses url, title and stars; the other lists use url, title and author.

With overlapping submits, every fired reset clears the status line. A submit
made while an older reset is pending therefore has its status cleared early,
by that older reset (`Subscription.EarlierResetCutsLaterStatus`).

## Model

| member | source | states |
|---|---|---|
| `Json.Truthy` | frontend/app/page.tsx:140-143 | a value is falsy exactly when it is `undefined`, `null`, `false`, `0` or `""`; every array and object is truthy |
| `Json.Or` | frontend/app/page.tsx:140-143 | `a \|\| b` is `a` when `a` is truthy and `b` otherwise; the result is truthy exactly when either operand is |
| `Json.Get` | frontend/app/page.tsx:140 | reading a key of an object gives its value when present and `undefined` when absent |
| `Json.Field` | frontend/app/page.tsx:140-143 | a property read on the unwrapped payload yields the object's property, or `undefined` when it is absent or the payload is not an object |
| `Json.FirstTruthy` | frontend/app/page.tsx:141-143 | a candidate list with a final value yields its first truthy candidate, or the final value when every candidate is falsy |
| `Json.OrChain3` | frontend/app/page.tsx:141 | the left-nested chain `a \|\| b \|\| c` equals the candidate list `[a, b]` ending in `c` |
| `Json.OrChain4` | frontend/app/page.tsx:143 | the left-nested chain `a \|\| b \|\| c \|\| d` equals the candidate list `[a, b, c]` ending in `d` |
| `VideoId.Extract` | frontend/app/page.tsx:146-148 | there is no capture exactly when no `v=` is followed by a non-`&` character; a capture is non-empty, contains no `&`, follows the leftmost such `v=`, and runs to the end of the url or the next `&` |
| `VideoId.WatchUrl` | frontend/app/page.tsx:146 | `watch?v=abc123` captures `abc123` |
| `VideoId.StopsAtAmpersand` | frontend/app/page.tsx:146 | `?v=ab&t=9` captures `ab` |
| `VideoId.MatchesInsideParameterName` | frontend/app/page.tsx:146 | `?dev=1` captures `1`, because the expression is not tied to a parameter name |
| `VideoId.SkipsEmptyValue` | frontend/app/page.tsx:146 | in `v=&v=x` the first `v=` cannot match, and the capture is `x` |
| `VideoId.NoParameter` | frontend/app/page.tsx:146 | `youtu.be/abc` has no capture |
| `Normalizer.Payload` | frontend/app/page.tsx:140 | the payload is the item's `json` field when that is truthy, otherwise the item itself; it is always truthy |
| `Normalizer.Url` | frontend/app/page.tsx:141 | the url is one of `url`, `link`, `repoUrl`, and is truthy exactly when one of them is; the order is stated by `Normalizer.UrlMatchesTable` |
| `Normalizer.Author` | frontend/app/page.tsx:143 | the author is always truthy and is one of `creator`, `author`, `channel` or the default; the order is stated by `Normalizer.AuthorMatchesTable` |
| `Normalizer.Stars` | frontend/app/page.tsx:241 | the stars are truthy exactly when `stars` or `stargazers_count` is, and `null` otherwise; the order is stated by `Normalizer.StarsMatchesTable` |
| `Normalizer.Thumbnail` | frontend/app/page.tsx:144-152 | a truthy `thumbnail` wins; the result is truthy or `null`; for sources other than `youtube` and `devto` it is `null` exactly when `thumbnail` is falsy; the full case analysis is `NormalizerLaws.ThumbnailRules` |
| `Normalizer.DerivedThumbnail` | frontend/app/page.tsx:146-152 | the fallback after `p.thumbnail` is always truthy or `null` |
| `Normalizer.Normalize` | frontend/app/page.tsx:140-152 | the author is always truthy; thumbnail and stars are truthy or `null`; the title is the payload's `title` unchanged |
| `Normalizer.UrlMatchesTable` | frontend/app/page.tsx:141 | the url chain equals the table entry: candidates `url`, `link`, falling to `repoUrl` |
| `Normalizer.AuthorMatchesTable` | frontend/app/page.tsx:143 | the author chain equals the table entry: candidates `creator`, `author`, `channel`, default `"Unknown"` |
| `Normalizer.StarsMatchesTable` | frontend/app/page.tsx:241 | the stars chain equals the table entry: candidates `stars`, `stargazers_count`, default `null` |
| `Normalizer.NormalizeMatchesTable` | frontend/app/page.tsx:140-152 | the inline chains and the accessor table give the same record for every item and source |
| `NormalizerLaws.WrapperHidesOuterFields` | frontend/app/page.tsx:140 | two items with the same truthy `json` field normalise identically, whatever else they hold |
| `NormalizerLaws.WrapIsTransparent` | frontend/app/page.tsx:238 | `{json: X}` normalises like `X` when `X` has no truthy `json` of its own |
| `NormalizerLaws.UnwrapIsSingleLevel` | frontend/app/page.tsx:371-373 | `{json: Y}` reads its title from `Y`, one level down and no further |
| `NormalizerLaws.FallbackPrecedence` | frontend/app/page.tsx:141-143 | every table chain takes its first truthy candidate, and falls to its last value only when all candidates are falsy |
| `NormalizerLaws.UrlPrecedence` | frontend/app/page.tsx:141 | the url is `url` if truthy, else `link` if truthy, else `repoUrl` as it is |
| `NormalizerLaws.AuthorDefaulting` | frontend/app/page.tsx:374 | the author is never falsy or an empty string; it is the default exactly when no candidate is truthy, unless a candidate literally reads `"Unknown"` |
| `NormalizerLaws.StarsShownIffTruthy` | frontend/app/page.tsx:293 | stars are shown exactly when `stars` or `stargazers_count` is truthy, and are `null` otherwise, so a count of 0 is hidden |
| `NormalizerLaws.ThumbnailRules` | frontend/app/page.tsx:144-152 | a truthy `thumbnail` wins; otherwise a `youtube` url with an id gives the templated address with a non-empty id free of `&`; otherwise a truthy `devto` image; otherwise `null` |
| `NormalizerLaws.VideoThumbnailExample` | frontend/app/page.tsx:146-149 | a `youtube` item with url `watch?v=abc123` gets `https://img.youtube.com/vi/abc123/hqdefault.jpg` |
| `NormalizerLaws.WatchThumbnail` | frontend/app/page.tsx:146-149 | the derived thumbnail of `watch?v=abc123` is the templated address for `abc123` |
| `NormalizerLaws.ThumbnailLiteral` | frontend/app/page.tsx:147-149 | the templated address for `abc123`, spelled out |
| `NormalizerLaws.VideoWithoutIdExample` | frontend/app/page.tsx:146-152 | a `youtube` url without `v=` and with no thumbnail field gives `null` |
| `Registry.Color` | frontend/app/page.tsx:99-109 | a configured source gets its own gradient; the default gradient is returned exactly for ids that are not configured |
| `Registry.ColorsDistinct` | frontend/app/page.tsx:100-107 | no two configured sources share a gradient |
| `Registry.SourceIcon` | frontend/app/page.tsx:74-97 | a logo image `/logos/<id>.svg` exactly for `devto`, `reddit` and `hackernews`; the YouTube glyph exactly for `youtube`, the GitHub glyph exactly for `github`, and the generic trending glyph exactly for ids the page does not know |
| `Registry.IconsDistinct` | frontend/app/page.tsx:74-97 | no two of the five sources share an icon |
| `Registry.CardCaption` | frontend/app/page.tsx:133-136 | the card template prints a caption exactly for `devto` and `youtube` |
| `Registry.ListCaption` | frontend/app/page.tsx:225-230 | the list templates print a caption exactly for `github`, `reddit` and `hackernews` |
| `Registry.CardCaptionsDistinct` | frontend/app/page.tsx:134-135 | the two card sources have different captions |
| `Registry.ListCaptionsDistinct` | frontend/app/page.tsx:361-364 | the three list sources have pairwise different captions |
| `Registry.UpperAscii` | frontend/app/page.tsx:130 | `toUpperCase` on one character maps `a`–`z` to `A`–`Z` and leaves everything else alone |
| `Registry.Heading` | frontend/app/page.tsx:130 | the heading keeps the length and every character but the first, and upper-cases the first |
| `Registry.HeadingIdempotent` | frontend/app/page.tsx:222 | capitalising a heading again changes nothing |
| `Registry.HeadingFixedPoints` | frontend/app/page.tsx:357 | the heading equals the id exactly when the id is empty or does not start with a lower-case letter |
| `Registry.SourceHeadings` | frontend/app/page.tsx:130 | the five headings are `Devto`, `Youtube`, `Github`, `Reddit` and `Hackernews` |
| `Registry.LayoutOf` | frontend/app/page.tsx:585-589 | each of the five page sources has a template, and no other id has one; `github` alone uses two columns |
| `Layout.Slice` | frontend/app/page.tsx:112 | `slice(start, end)` clamps both bounds to the array and keeps the elements between them, in order |
| `Layout.SectionHeader` | frontend/app/page.tsx:121-136 | the heading line shows the capitalised id, the caption of the section's template, and the colour and icon the registry gives the section's own source; a section drawn in its registered template gets a non-empty caption, a colour other than the blue-to-purple default and an icon other than the generic trending glyph |
| `Layout.RenderCards` | frontend/app/page.tsx:111-113 | the grid exists exactly when the source is in the snapshot; it holds the first `min(5, n)` items, normalised, in order |
| `Layout.TwoColumns` | frontend/app/page.tsx:203-205 | the left column holds items 1–5 with ranks from 1; the right column holds items 6–10 with ranks from 6 |
| `Layout.OneColumn` | frontend/app/page.tsx:370 | the single column holds the first `min(5, n)` items with ranks from 1 |
| `Layout.RenderList` | frontend/app/page.tsx:198-205 | the list exists exactly when the source is in the snapshot; `github` gets two columns of sizes `min(5, n)` and `max(0, min(5, n - 5))`, and the right one is drawn exactly when `n > 5`; the other sources get one column of `min(5, n)` rows |
| `Layout.RightColumnShown` | frontend/app/page.tsx:285 | no contract of its own: `Layout.RenderList` states that the right column is shown exactly when the source has more than five items |
| `Layout.Page` | frontend/app/page.tsx:583-590 | nothing is shown while loading or without a snapshot, and never more than five sections; what is shown is stated by `LayoutLaws.PageFollowsRegistry` |
| `LayoutLaws.DualColumnsConcatenate` | frontend/app/page.tsx:199-205 | left column then right column is exactly the first `min(10, n)` items ranked from 1; the left column is non-empty exactly when there are items |
| `LayoutLaws.DualRowAt` | frontend/app/page.tsx:199-205 | position `i` of the left-then-right github columns holds item `i` ranked `i + 1` |
| `LayoutLaws.RankedFromOne` | frontend/app/page.tsx:383 | ranking a prefix of the array from 1 puts item `k - 1` at rank `k` |
| `LayoutLaws.RankIsPosition` | frontend/app/page.tsx:303 | a list shows `min(10, n)` rows for `github` and `min(5, n)` otherwise, and the row ranked `k` shows item `k - 1` |
| `LayoutLaws.CardsCapped` | frontend/app/page.tsx:112-113 | the grid shows `min(5, n)` cards, never more than five |
| `LayoutLaws.SectionForFollowsRegistry` | frontend/app/page.tsx:585-589 | a registered source has a section exactly when it is in the snapshot, in its registered template |
| `LayoutLaws.SectionsFollowRegistry` | frontend/app/page.tsx:583-590 | for any list of registered sources, the sections are the present sources in list order, one each, each in its registered template |
| `LayoutLaws.PageIsSectionsOfSources` | frontend/app/page.tsx:585-589 | the page's five calls are the registry's sources in order, each through the template the registry names |
| `LayoutLaws.PageHeadersConfigured` | frontend/app/page.tsx:121-136 | every section of a loaded page is headed by a non-empty caption, a configured colour and a source-specific icon: no section falls back to the defaults |
| `LayoutLaws.PresentSourcesNoRepeats` | frontend/app/page.tsx:583-590 | keeping the present sources of a list without repeats leaves no repeats |
| `LayoutLaws.HeadersDistinct` | frontend/app/page.tsx:121-127 | sections showing the present sources in order have pairwise different colours and icons |
| `LayoutLaws.PageHeadersDistinct` | frontend/app/page.tsx:121-127 | any two sections of a loaded page have different colours and different icons |
| `LayoutLaws.PageFollowsRegistry` | frontend/app/page.tsx:583-590 | the page shows exactly the registered sources present in the snapshot, in page order, each once, in its registered template |
| `LayoutLaws.PageEmptyUntilLoaded` | frontend/app/page.tsx:583 | nothing is shown while loading or without a snapshot; a loaded snapshot holding `devto` shows something |
| `LayoutLaws.SingleForumItem` | frontend/app/page.tsx:370-398 | a snapshot holding a single `reddit` item with a title and link shows one single-column list with one row: rank 1, the link, the title, author `Unknown` |
| `LayoutLaws.ForumSection` | frontend/app/page.tsx:370-383 | a one-item `reddit` array gives one row ranked 1 |
| `LayoutLaws.ForumPost` | frontend/app/page.tsx:371-374 | an item with only `title` and `link` normalises to the link, the title and the default author |
| `LayoutLaws.TwentyFiveRepositories` | frontend/app/page.tsx:199-205 | twenty-five repositories show ranks 1–5 on the left and 6–10 on the right, and nothing past rank 10 |
| `Subscription.Init` | frontend/app/page.tsx:29-34 | the page starts with an empty field, weekly frequency, no status and the invariant holding |
| `Subscription.ValidEmail` | frontend/app/page.tsx:54 | no contract of its own: `Subscription.ValidEmailIsAtSign` states that it holds exactly when the email contains `@`, and `Subscription.Submit` states what each outcome does |
| `Subscription.ValidEmailIsAtSign` | frontend/app/page.tsx:54 | the handler's emptiness test is subsumed by its `@` test |
| `Subscription.EditEmail` | frontend/app/page.tsx:487 | typing sets the email field and changes nothing else |
| `Subscription.Toggle` | frontend/app/page.tsx:503-506 | the switch always changes the frequency |
| `Subscription.ToggleFrequency` | frontend/app/page.tsx:503-506 | the switch changes the frequency and nothing else |
| `Subscription.ToggleInvolution` | frontend/app/page.tsx:503-506 | switching twice restores the state |
| `Subscription.Submit` | frontend/app/page.tsx:53-72 | an email that is empty or has no `@` sets Error without a store request and keeps the field; a valid one sends one request with the current frequency, then store success sets Success and clears the field, and store failure sets Error; every path schedules a reset 3000 ms ahead |
| `Subscription.PendingAfter` | frontend/app/page.tsx:56 | the resets still pending after time `t` are exactly those due later than `t` |
| `Subscription.Advance` | frontend/app/page.tsx:71 | waiting fires every due reset; the status becomes idle exactly when it was idle or some reset fell due, and nothing else changes |
| `Subscription.StepKeepsInv` | frontend/app/page.tsx:53-72 | every event keeps each pending reset within the coming 3000 ms and keeps a reset pending while a status is shown |
| `Subscription.RunKeepsInv` | frontend/app/page.tsx:53-72 | any sequence of events keeps that invariant |
| `Subscription.Reachable` | frontend/app/page.tsx:34 | every state reachable from the initial page satisfies the invariant |
| `Subscription.StatusClearsWithinDelay` | frontend/app/page.tsx:56 | in any reachable state, 3000 ms without input leave no status and no pending reset |
| `Subscription.StatusHeldForDelay` | frontend/app/page.tsx:71 | with no older reset pending, a submit's status stays for less than 3000 ms of waiting and is gone at 3000 ms |
| `Subscription.ValidationGuardsStore` | frontend/app/page.tsx:54-62 | a submit sends exactly one store request when the email contains `@`, and none otherwise |
| `Subscription.StatusMessage` | frontend/app/page.tsx:542-561 | a message is shown exactly when the status is not idle |
| `Subscription.FailuresShareMessage` | frontend/app/page.tsx:555-560 | a rejected email and a store failure show the same text |
| `Subscription.SuccessMessageReadsLiveFrequency` | frontend/app/page.tsx:553 | flipping the switch after a success changes the frequency named by the message, though the request used the other one |
| `Subscription.EarlierResetCutsLaterStatus` | frontend/app/page.tsx:53-72 | an invalid submit at 0 ms and a valid one at 1000 ms: the success is shown until 2999 ms, is cleared at 3000 ms by the first reset, and the second reset stays pending for 4000 ms |

## Left out

- Fetching the snapshot and parsing JSON (`frontend/app/page.tsx:36-51`) is network I/O. The snapshot is a given map from source id to item arrays, and the loading flag and a failed fetch are inputs to `Layout.Page`.
- The Supabase client and its insert call (`frontend/app/page.tsx:21-25, 60-62`) are a foreign library. A submit receives the store's outcome as a boolean, and the request is logged in `inserts`.
- Interleaving of overlapping `await`s between submits is event-loop concurrency. Each submit is atomic.
- `toLocaleString` formatting of numeric star counts (`frontend/app/page.tsx:270-272`) is locale-dependent. Stars are kept as the raw value.
- The `username` computed in the `github` list (`frontend/app/page.tsx:242, 294`) is never rendered.
- Markup, CSS classes, dark mode, the `isVisible` animation flag, image sizes, the placeholder image and `frontend/app/layout.tsx` hold no page logic.
- On a `youtube` item, a `url` that is neither a string nor `null`/`undefined` makes `url.match` throw. This includes `0` and `false`, which arise when `url` and `link` are falsy and `repoUrl` holds them. The model treats every such value as no match and yields a `null` thumbnail.
- A truthy string `json` field becomes the payload. The model reads every field of a non-object payload as `undefined`. JavaScript would find `String.prototype.link` under `link`.
- The registry lookups index plain objects, so an id such as `constructor` would hit an inherited property. The model treats every id outside the five sources as unconfigured.
- `toUpperCase` is modelled for ASCII letters only.
- JavaScript numbers are modelled as integers: no fractions, `NaN` or `-0`.
- Snapshot array elements are taken to be objects. In the code a `null` element makes `item.json` throw (`frontend/app/page.tsx:140, 238, 290, 371`). A number element has no fields, so its card still shows the author `Unknown` and the placeholder image (`frontend/app/page.tsx:143, 184`), and in a list it becomes a ranked row without a title. A string element is read through its string methods, so its `link` is a function.
- The model takes every source present in the snapshot as an array of items. In the code a `null` or `undefined` property gives no section, like a missing one. A number, boolean or object has no `slice` method, so `content?.[source]?.slice(...)` throws (`frontend/app/page.tsx:112, 199`). A non-empty string is sliced, and the following `.map` throws (`frontend/app/page.tsx:139, 237, 370`). An empty string slices to a falsy value, so the section renders nothing (`frontend/app/page.tsx:113, 200`).
- `Normalizer.DerivedThumbnail`: states only that the result is truthy or `null`. The case analysis is stated in `NormalizerLaws.ThumbnailRules`.

=== FILE: json.dfy ===
/**
 JavaScript values as the page sees them after `res.json()`, together with the
 two JavaScript operations the normaliser is built from: truthiness and `||`.
 */
module Json {

  /** A JavaScript value. `JUndefined` is what reading an absent property yields;
      numbers are modelled as integers. */
  datatype JVal =
    | JUndefined
    | JNull
    | JBool(b: bool)
    | JInt(n: int)
    | JStr(s: string)
    | JArr(elems: seq<JVal>)
    | JObj(fields: map<string, JVal>)

  /** JavaScript truthiness: `undefined`, `null`, `false`, `0` and `""` are falsy,
      every other value (including every array and object) is truthy. */
  predicate Truthy(v: JVal): (b: bool)
    ensures !b <==> v == JUndefined || v == JNull || v == JBool(false) || v == JInt(0) || v == JStr("")
  {
    match v
    case JUndefined => false
    case JNull => false
    case JBool(b) => b
    case JInt(n) => n != 0
    case JStr(s) => s != ""
    case JArr(_) => true
    case JObj(_) => true
  }

  /** The JavaScript expression `a || b`. */
  function Or(a: JVal, b: JVal): (r: JVal)
    ensures r == a || r == b
    ensures Truthy(r) <==> Truthy(a) || Truthy(b)
    ensures Truthy(a) ==> r == a
    ensures !Truthy(a) ==> r == b
  {
    if Truthy(a) then a else b
  }

  /** `o[k]` on a plain object given as its own property map. */
  function Get(o: map<string, JVal>, k: string): (r: JVal)
    ensures k in o ==> r == o[k]
    ensures k !in o ==> r == JUndefined
  {
    if k in o then o[k] else JUndefined
  }

  /** `p.k` on an arbitrary value: only objects carry the properties the page reads. */
  function Field(p: JVal, k: string): (r: JVal)
    ensures p.JObj? ==> r == Get(p.fields, k)
    ensures !p.JObj? ==> r == JUndefined
  {
    match p
    case JObj(m) => Get(m, k)
    case _ => JUndefined
  }

  /** `vs[i]` is the first truthy value of `vs`. */
  ghost predicate FirstTruthyAt(vs: seq<JVal>, i: int) {
    0 <= i < |vs| && Truthy(vs[i]) && forall j :: 0 <= j < i ==> !Truthy(vs[j])
  }

  /** The chain `vs[0] || vs[1] || ... || last`, evaluated left to right: the first
      truthy candidate, or `last` itself (which may be falsy) when none is. */
  function FirstTruthy(vs: seq<JVal>, last: JVal): (r: JVal)
    ensures forall i :: FirstTruthyAt(vs, i) ==> r == vs[i]
    ensures (forall i :: 0 <= i < |vs| ==> !Truthy(vs[i])) ==> r == last
    ensures r in vs || r == last
  {
    if |vs| == 0 then last
    else if Truthy(vs[0]) then vs[0]
    else FirstTruthy(vs[1..], last)
  }

  /** `||` is associative, so a JavaScript chain `a || b || c`, which parses as
      `(a || b) || c`, is the candidate list `[a, b]` ending in `c`. */
  lemma OrChain3(a: JVal, b: JVal, c: JVal)
    ensures Or(Or(a, b), c) == FirstTruthy([a, b], c)
  {
    assert [a, b][1..] == [b];
    assert [b][1..] == [];
  }

  lemma OrChain4(a: JVal, b: JVal, c: JVal, d: JVal)
    ensures Or(Or(Or(a, b), c), d) == FirstTruthy([a, b, c], d)
  {
    OrChain3(b, c, d);
    assert [a, b, c][1..] == [b, c];
    assert FirstTruthy([a, b, c], d) == Or(a, FirstTruthy([b, c], d));
  }
}

=== FILE: layout.dfy ===
/**
 The layout selector: `renderCards` and `renderList` slice the per-source array of
 the snapshot, normalise each kept item and number the rows of the ranked lists;
 the page renders the five sources in a fixed order once loading has finished.
 */
module Layout {
  import opened Optional
  import opened Normalizer
  import opened Registry

  /** The snapshot: the per-source arrays of raw items. A source absent from the
      map is one whose property is missing (or `null`) in the fetched object. */
  type Snapshot = map<string, seq<Item>>

  function Min(a: int, b: int): int {
    if a <= b then a else b
  }

  function Max(a: int, b: int): int {
    if a <= b then b else a
  }

  /** JavaScript `xs.slice(start, end)` with non-negative bounds: bounds past the
      end are clamped, and a start past the end gives the empty array. */
  function Slice<T>(xs: seq<T>, start: nat, end: nat): (r: seq<T>)
    ensures |r| == Max(0, Min(end, |xs|) - Min(start, |xs|))
    ensures forall i :: 0 <= i < |r| ==> r[i] == xs[start + i]
  {
    var lo, hi := Min(start, |xs|), Min(end, |xs|);
    if lo <= hi then xs[lo..hi] else []
  }

  /** One row of a ranked list: the number shown beside it and the post. */
  datatype Row = Row(rank: nat, post: Post)

  /** The heading line of a section. */
  datatype Header = Header(heading: string, caption: string, color: string, icon: Icon)

  datatype Section =
    | Grid(source: string, cards: seq<Post>)
    | SingleList(source: string, rows: seq<Row>)
    | DualList(source: string, left: seq<Row>, right: seq<Row>)

  function Kind(s: Section): LayoutKind {
    match s
    case Grid(_, _) => CardGrid
    case SingleList(_, _) => ListSingleColumn
    case DualList(_, _, _) => ListDualColumn
  }

  /** `rightPosts.length > 0`: whether the second column of the two-column list is drawn. */
  predicate RightColumnShown(s: Section)
    requires s.DualList?
  {
    |s.right| > 0
  }

  /** `posts.map(...)`: the normaliser applied to each item, in order. */
  function NormalizeAll(items: seq<Item>, source: string): (r: seq<Post>)
    ensures |r| == |items|
    ensures forall i :: 0 <= i < |items| ==> r[i] == Normalize(items[i], source)
  {
    seq(|items|, i requires 0 <= i < |items| => Normalize(items[i], source))
  }

  /** The rows of a ranked list whose first row shows `first`. */
  function Ranked(posts: seq<Post>, first: nat): (r: seq<Row>)
    ensures |r| == |posts|
    ensures forall i :: 0 <= i < |posts| ==> r[i] == Row(first + i, posts[i])
  {
    seq(|posts|, i requires 0 <= i < |posts| => Row(first + i, posts[i]))
  }

  /** The heading line drawn above a section: the capitalised id, the caption of
      the section's template, the source's colour and icon. A section drawn in the
      template the registry assigns to its source gets a caption, a colour and an
      icon of its own rather than the fallbacks. */
  function SectionHeader(s: Section): (h: Header)
    ensures h.heading == Heading(s.source)
    ensures h.caption == if s.Grid? then CardCaption(s.source) else ListCaption(s.source)
    ensures h.color == Color(s.source) && h.icon == SourceIcon(s.source)
    ensures LayoutOf(s.source) == Some(Kind(s)) ==>
      h.caption != "" && h.color != DefaultColor && h.icon != Builtin(TrendingUpGlyph)
  {
    var caption := if s.Grid? then CardCaption(s.source) else ListCaption(s.source);
    Header(Heading(s.source), caption, Color(s.source), SourceIcon(s.source))
  }

  /** `renderCards`: the first five items of the source as a card grid, or nothing
      when the source is missing. An empty array still yields an (empty) grid. */
  function RenderCards(snap: Snapshot, source: string): (r: Option<Section>)
    ensures r.Some? <==> source in snap
    ensures r.Some? ==> r.value.Grid? && r.value.source == source
    ensures r.Some? ==>
      var items, cards := snap[source], r.value.cards;
      && |cards| == Min(5, |items|)
      && forall i :: 0 <= i < |cards| ==> cards[i] == Normalize(items[i], source)
  {
    if source !in snap then None
    else
      var posts := Slice(snap[source], 0, 5);
      Some(Grid(source, NormalizeAll(posts, source)))
  }

  /** The `github` branch of `renderList`, given the first ten items: the left
      column holds items 1 to 5, the right column items 6 to 10. */
  function TwoColumns(posts: seq<Item>, source: string): (s: Section)
    requires |posts| <= 10
    ensures s.DualList? && s.source == source
    ensures |s.left| == Min(5, |posts|)
    ensures forall i :: 0 <= i < |s.left| ==> s.left[i] == Row(i + 1, Normalize(posts[i], source))
    ensures |s.right| == Max(0, |posts| - 5)
    ensures forall i :: 0 <= i < |s.right| ==> s.right[i] == Row(i + 6, Normalize(posts[i + 5], source))
  {
    var left := Ranked(NormalizeAll(Slice(posts, 0, 5), source), 1);
    var right := Ranked(NormalizeAll(Slice(posts, 5, 10), source), 6);
    DualList(source, left, right)
  }

  /** The other branch of `renderList`: the first five of the given items, ranked from 1. */
  function OneColumn(posts: seq<Item>, source: string): (s: Section)
    ensures s.SingleList? && s.source == source
    ensures |s.rows| == Min(5, |posts|)
    ensures forall i :: 0 <= i < |s.rows| ==> s.rows[i] == Row(i + 1, Normalize(posts[i], source))
  {
    SingleList(source, Ranked(NormalizeAll(Slice(posts, 0, 5), source), 1))
  }

  /** `renderList`: the first ten items of the source; `github` splits them into a
      left column of ranks 1 to 5 and a right column of ranks 6 to 10, every other
      source shows a single ranked column of the first five. A missing source
      renders nothing. */
  function RenderList(snap: Snapshot, source: string): (r: Option<Section>)
    ensures r.Some? <==> source in snap
    ensures r.Some? ==> r.value.source == source
    ensures r.Some? ==> (r.value.DualList? <==> source == "github")
    ensures r.Some? ==> (r.value.SingleList? <==> source != "github")
    ensures r.Some? && source == "github" ==>
      var items, s := snap[source], r.value;
      && |s.left| == Min(5, |items|)
      && (forall i :: 0 <= i < |s.left| ==> s.left[i] == Row(i + 1, Normalize(items[i], source)))
      && |s.right| == Max(0, Min(5, |items| - 5))
      && (forall i :: 0 <= i < |s.right| ==> s.right[i] == Row(i + 6, Normalize(items[i + 5], source)))
      && (RightColumnShown(s) <==> |items| > 5)
    ensures r.Some? && source != "github" ==>
      var items, s := snap[source], r.value;
      && |s.rows| == Min(5, |items|)
      && forall i :: 0 <= i < |s.rows| ==> s.rows[i] == Row(i + 1, Normalize(items[i], source))
  {
    if source !in snap then None
    else
      var posts := Slice(snap[source], 0, 10);
      if source == "github" then Some(TwoColumns(posts, source))
      else Some(OneColumn(posts, source))
  }

  /** The rows of a list section in reading order: the left column, then the right. */
  function Rows(s: Section): (r: seq<Row>)
    requires !s.Grid?
    ensures s.SingleList? ==> r == s.rows
    ensures s.DualList? ==> |r| == |s.left| + |s.right| && r[..|s.left|] == s.left && r[|s.left|..] == s.right
  {
    if s.DualList? then s.left + s.right else s.rows
  }

  function Present(s: Option<Section>): (r: seq<Section>)
    ensures |r| <= 1
  {
    if s.Some? then [s.value] else []
  }

  /** The content area of the page: nothing while loading or without a snapshot,
      otherwise the sections of the five sources in page order. */
  function Page(loading: bool, content: Option<Snapshot>): (r: seq<Section>)
    ensures loading || content.None? ==> r == []
    ensures |r| <= |Sources|
  {
    if loading || content.None? then []
    else
      var snap := content.value;
      Present(RenderCards(snap, "devto"))
      + (Present(RenderCards(snap, "youtube"))
      + (Present(RenderList(snap, "github"))
      + (Present(RenderList(snap, "reddit"))
      + Present(RenderList(snap, "hackernews")))))
  }
}

=== FILE: layout_laws.dfy ===
/**
 What the layout templates promise: caps, the ranks shown, how the two columns
 of the `github` list fit together, and which sections the page shows.
 */
module LayoutLaws {
  import opened Optional
  import opened Json
  import opened Normalizer
  import opened Registry
  import opened Layout

  /** The two columns of the `github` list, read left then right, are exactly the
      first `min(10, n)` items ranked from 1; the left column is non-empty
      exactly when there is at least one item. */
  lemma DualColumnsConcatenate(snap: Snapshot)
    requires "github" in snap
    ensures var s, items := RenderList(snap, "github").value, snap["github"];
      && Rows(s) == Ranked(NormalizeAll(items[..Min(10, |items|)], "github"), 1)
      && (|s.left| > 0 <==> |items| > 0)
  {
    var s, items := RenderList(snap, "github").value, snap["github"];
    var whole := Ranked(NormalizeAll(items[..Min(10, |items|)], "github"), 1);
    var both := s.left + s.right;
    assert |both| == |whole|;
    forall i | 0 <= i < |both|
      ensures both[i] == whole[i]
    {
      DualRowAt(snap, i);
    }
  }

  /** Row `i` of the two github columns read left then right is the ranked row `i`. */
  lemma DualRowAt(snap: Snapshot, i: int)
    requires "github" in snap
    requires 0 <= i < Min(10, |snap["github"]|)
    ensures var s, items := RenderList(snap, "github").value, snap["github"];
      (s.left + s.right)[i] == Ranked(NormalizeAll(items[..Min(10, |items|)], "github"), 1)[i]
  {
    var s, items := RenderList(snap, "github").value, snap["github"];
    var all := NormalizeAll(items[..Min(10, |items|)], "github");
    assert Ranked(all, 1)[i] == Row(1 + i, Normalize(items[i], "github"));
    if i < |s.left| {
      assert (s.left + s.right)[i] == s.left[i];
    } else {
      assert |s.left| == 5;
      assert (s.left + s.right)[i] == s.right[i - 5];
    }
  }

  /** Row `j` of `rows` has rank `j + 1` and shows item `j` of `items`. */
  predicate RankedByPosition(rows: seq<Row>, items: seq<Item>, source: string) {
    && |rows| <= |items|
    && forall j :: 0 <= j < |rows| ==>
         rows[j].rank == j + 1 && rows[j].post == Normalize(items[rows[j].rank - 1], source)
  }

  lemma RankedRowAt(posts: seq<Item>, items: seq<Item>, source: string, j: int)
    requires |posts| <= |items| && posts == items[..|posts|] && 0 <= j < |posts|
    ensures var row := Ranked(NormalizeAll(posts, source), 1)[j];
      row.rank == j + 1 && row.post == Normalize(items[row.rank - 1], source)
  {
    var all := NormalizeAll(posts, source);
    assert Ranked(all, 1)[j] == Row(1 + j, all[j]);
    assert items[j] == posts[j];
  }

  lemma RankedFromOne(posts: seq<Item>, items: seq<Item>, source: string)
    requires |posts| <= |items| && posts == items[..|posts|]
    ensures RankedByPosition(Ranked(NormalizeAll(posts, source), 1), items, source)
  {
    var rows := Ranked(NormalizeAll(posts, source), 1);
    forall j | 0 <= j < |rows|
      ensures rows[j].rank == j + 1 && rows[j].post == Normalize(items[rows[j].rank - 1], source)
    {
      RankedRowAt(posts, items, source, j);
    }
  }

  /** No list shows more than its cap, and every row's rank is its 1-based
      position in the source's array: the row ranked `k` shows item `k - 1`. */
  lemma RankIsPosition(snap: Snapshot, source: string)
    requires source in snap
    ensures var rows, items := Rows(RenderList(snap, source).value), snap[source];
      && |rows| == Min(if source == "github" then 10 else 5, |items|)
      && RankedByPosition(rows, items, source)
  {
    var items := snap[source];
    var s := RenderList(snap, source).value;
    if source == "github" {
      DualColumnsConcatenate(snap);
      RankedFromOne(items[..Min(10, |items|)], items, source);
    } else {
      assert s.rows == Ranked(NormalizeAll(items[..Min(5, |items|)], source), 1);
      RankedFromOne(items[..Min(5, |items|)], items, source);
    }
  }

  /** The card grid never shows more than five cards. */
  lemma CardsCapped(snap: Snapshot, source: string)
    requires source in snap
    ensures |RenderCards(snap, source).value.cards| == Min(5, |snap[source]|) <= 5
  {
  }

  /** The template chosen for a source, as the registry records it. */
  function SectionFor(snap: Snapshot, source: string): Option<Section> {
    if LayoutOf(source) == Some(CardGrid) then RenderCards(snap, source) else RenderList(snap, source)
  }

  /** A registered source has a section exactly when it is in the snapshot, and
      that section is drawn in the template the registry assigns to it. */
  lemma SectionForFollowsRegistry(snap: Snapshot, source: string)
    requires source in Sources
    ensures SectionFor(snap, source).Some? <==> source in snap
    ensures SectionFor(snap, source).Some? ==>
      var s := SectionFor(snap, source).value;
      s.source == source && LayoutOf(source) == Some(Kind(s))
  {
  }

  /** The sections for a list of sources, in list order. */
  function SectionsOf(snap: Snapshot, srcs: seq<string>): seq<Section> {
    if srcs == [] then [] else Present(SectionFor(snap, srcs[0])) + SectionsOf(snap, srcs[1..])
  }

  /** The sources of `srcs` present in the snapshot, in list order. */
  function PresentSources(snap: Snapshot, srcs: seq<string>): (r: seq<string>)
    ensures forall x :: x in r <==> x in srcs && x in snap
    ensures |r| <= |srcs|
  {
    if srcs == [] then []
    else if srcs[0] in snap then [srcs[0]] + PresentSources(snap, srcs[1..])
    else PresentSources(snap, srcs[1..])
  }

  /** `sec` is drawn in the template the registry assigns to its source. */
  predicate InRegisteredTemplate(sec: Section) {
    LayoutOf(sec.source) == Some(Kind(sec))
  }

  /** The sections `r` show the sources `ps`, one each, in order, each in its
      registered template. */
  predicate ShowsInOrder(r: seq<Section>, ps: seq<string>) {
    |r| == |ps| && forall j :: 0 <= j < |r| ==> r[j].source == ps[j] && InRegisteredTemplate(r[j])
  }

  lemma ShowsInOrderCons(head: seq<Section>, tail: seq<Section>, x: seq<string>, tps: seq<string>)
    requires ShowsInOrder(head, x) && ShowsInOrder(tail, tps)
    ensures ShowsInOrder(head + tail, x + tps)
  {
    var r, ps := head + tail, x + tps;
    forall j | 0 <= j < |r|
      ensures r[j].source == ps[j] && InRegisteredTemplate(r[j])
    {
      if j < |head| {
        assert r[j] == head[j] && ps[j] == x[j];
      } else {
        assert r[j] == tail[j - |head|] && ps[j] == tps[j - |head|];
      }
    }
  }

  /** Section by section, the list shows the present sources in order, each in its
      registered template. */
  lemma {:induction false} SectionsFollowRegistry(snap: Snapshot, srcs: seq<string>)
    requires forall i :: 0 <= i < |srcs| ==> srcs[i] in Sources
    ensures ShowsInOrder(SectionsOf(snap, srcs), PresentSources(snap, srcs))
    decreases |srcs|
  {
    if srcs != [] {
      var tail := srcs[1..];
      assert forall i :: 0 <= i < |tail| ==> tail[i] in Sources by {
        forall i | 0 <= i < |tail| ensures tail[i] in Sources {
          assert tail[i] == srcs[i + 1];
        }
      }
      SectionsFollowRegistry(snap, tail);
      SectionForFollowsRegistry(snap, srcs[0]);
      var head := Present(SectionFor(snap, srcs[0]));
      var x := if srcs[0] in snap then [srcs[0]] else [];
      assert ShowsInOrder(head, x);
      ShowsInOrderCons(head, SectionsOf(snap, tail), x, PresentSources(snap, tail));
      assert SectionsOf(snap, srcs) == head + SectionsOf(snap, tail);
      assert PresentSources(snap, srcs) == x + PresentSources(snap, tail);
    }
  }

  lemma SectionsOfCons(snap: Snapshot, x: string, rest: seq<string>)
    ensures SectionsOf(snap, [x] + rest) == Present(SectionFor(snap, x)) + SectionsOf(snap, rest)
  {
    assert ([x] + rest)[1..] == rest;
  }

  // The page's sections built up from its last source backwards, one source per step.

  lemma LastSection(snap: Snapshot)
    ensures SectionsOf(snap, ["hackernews"]) == Present(RenderList(snap, "hackernews"))
  {
    SectionsOfCons(snap, "hackernews", []);
  }

  lemma LastTwoSections(snap: Snapshot)
    ensures SectionsOf(snap, ["reddit", "hackernews"])
         == Present(RenderList(snap, "reddit")) + Present(RenderList(snap, "hackernews"))
  {
    SectionsOfCons(snap, "reddit", ["hackernews"]);
    LastSection(snap);
  }

  lemma LastThreeSections(snap: Snapshot)
    ensures SectionsOf(snap, ["github", "reddit", "hackernews"])
         == Present(RenderList(snap, "github"))
            + (Present(RenderList(snap, "reddit")) + Present(RenderList(snap, "hackernews")))
  {
    SectionsOfCons(snap, "github", ["reddit", "hackernews"]);
    LastTwoSections(snap);
  }

  lemma LastFourSections(snap: Snapshot)
    ensures SectionsOf(snap, ["youtube", "github", "reddit", "hackernews"])
         == Present(RenderCards(snap, "youtube"))
            + (Present(RenderList(snap, "github"))
            + (Present(RenderList(snap, "reddit")) + Present(RenderList(snap, "hackernews"))))
  {
    SectionsOfCons(snap, "youtube", ["github", "reddit", "hackernews"]);
    LastThreeSections(snap);
  }

  /** The five calls of the page are the registry's sources, in order. */
  lemma PageIsSectionsOfSources(snap: Snapshot)
    ensures Page(false, Some(snap)) == SectionsOf(snap, Sources)
  {
    SectionsOfCons(snap, "devto", ["youtube", "github", "reddit", "hackernews"]);
    LastFourSections(snap);
  }

  /** The page shows one section per registered source present in the snapshot,
      in page order, each in the template the registry assigns to its source; a
      source absent from the snapshot shows nothing. */
  lemma PageFollowsRegistry(snap: Snapshot)
    ensures ShowsInOrder(Page(false, Some(snap)), PresentSources(snap, Sources))
    ensures forall x :: x in PresentSources(snap, Sources) <==> x in Sources && x in snap
  {
    PageIsSectionsOfSources(snap);
    SectionsFollowRegistry(snap, Sources);
  }

  /** Every section on the page has a heading line of its own: a caption, a
      configured colour and a specific icon, never the fallbacks. */
  lemma PageHeadersConfigured(snap: Snapshot)
    ensures var page := Page(false, Some(snap));
      forall i :: 0 <= i < |page| ==>
        var h := SectionHeader(page[i]);
        h.caption != "" && h.color != DefaultColor && h.icon != Builtin(TrendingUpGlyph)
  {
    PageFollowsRegistry(snap);
    var page := Page(false, Some(snap));
    forall i | 0 <= i < |page|
      ensures var h := SectionHeader(page[i]);
        h.caption != "" && h.color != DefaultColor && h.icon != Builtin(TrendingUpGlyph)
    {
      assert InRegisteredTemplate(page[i]);
    }
  }

  /** No source occurs twice in `srcs`. */
  predicate NoRepeats(srcs: seq<string>) {
    forall i, j :: 0 <= i < j < |srcs| ==> srcs[i] != srcs[j]
  }

  /** Keeping only the present sources keeps them free of repeats. */
  lemma {:induction false} PresentSourcesNoRepeats(snap: Snapshot, srcs: seq<string>)
    requires NoRepeats(srcs)
    ensures NoRepeats(PresentSources(snap, srcs))
    decreases |srcs|
  {
    if srcs != [] {
      var tail := srcs[1..];
      assert NoRepeats(tail) by {
        forall i, j | 0 <= i < j < |tail| ensures tail[i] != tail[j] {
          assert tail[i] == srcs[i + 1] && tail[j] == srcs[j + 1];
        }
      }
      PresentSourcesNoRepeats(snap, tail);
      if srcs[0] in snap {
        var rest := PresentSources(snap, tail);
        var r := [srcs[0]] + rest;
        assert srcs[0] !in tail by {
          forall k | 0 <= k < |tail| ensures tail[k] != srcs[0] {
            assert tail[k] == srcs[k + 1];
          }
        }
        forall i, j | 0 <= i < j < |r| ensures r[i] != r[j] {
          if i == 0 {
            assert r[j] == rest[j - 1] && rest[j - 1] in tail;
          } else {
            assert r[i] == rest[i - 1] && r[j] == rest[j - 1];
          }
        }
      }
    }
  }

  /** Sections showing the present sources in order have pairwise distinct
      colours and icons, since no source is present twice. */
  lemma HeadersDistinct(snap: Snapshot, r: seq<Section>)
    requires ShowsInOrder(r, PresentSources(snap, Sources))
    ensures forall i, j :: 0 <= i < j < |r| ==>
      && SectionHeader(r[i]).color != SectionHeader(r[j]).color
      && SectionHeader(r[i]).icon != SectionHeader(r[j]).icon
  {
    var ps := PresentSources(snap, Sources);
    PresentSourcesNoRepeats(snap, Sources);
    forall i, j | 0 <= i < j < |r|
      ensures && SectionHeader(r[i]).color != SectionHeader(r[j]).color
              && SectionHeader(r[i]).icon != SectionHeader(r[j]).icon
    {
      var a, b := r[i].source, r[j].source;
      assert a == ps[i] && b == ps[j] && a in ps && b in ps;
      ColorsDistinct(a, b);
      IconsDistinct(a, b);
    }
  }

  /** Any two sections of a loaded page have different colours and different
      icons, so each section's header tells its source apart from the others. */
  lemma PageHeadersDistinct(snap: Snapshot)
    ensures var page := Page(false, Some(snap));
      forall i, j :: 0 <= i < j < |page| ==>
        && SectionHeader(page[i]).color != SectionHeader(page[j]).color
        && SectionHeader(page[i]).icon != SectionHeader(page[j]).icon
  {
    PageFollowsRegistry(snap);
    HeadersDistinct(snap, Page(false, Some(snap)));
  }

  /** Nothing is shown while loading or when the fetch produced no snapshot. */
  lemma PageEmptyUntilLoaded(loading: bool, content: Option<Snapshot>)
    ensures loading || content.None? ==> Page(loading, content) == []
    ensures !loading && content.Some? && "devto" in content.value ==> Page(loading, content) != []
  {
  }

  /** A single discussion-forum item with a title and a link: one ranked row with
      rank 1, the link as target and the default author. */
  lemma SingleForumItem()
    ensures var item := map["title" := JStr("A"), "link" := JStr("http://x")];
      Page(false, Some(map["reddit" := [item]]))
        == [SingleList("reddit",
             [Row(1, Post(JStr("http://x"), JStr("A"), JStr("Unknown"), JNull, JNull))])]
  {
    var item := map["title" := JStr("A"), "link" := JStr("http://x")];
    var snap := map["reddit" := [item]];
    ForumSection(snap, item);
    ForumPost();
    assert "devto" !in snap && "youtube" !in snap && "github" !in snap && "hackernews" !in snap;
    assert Present(RenderCards(snap, "devto")) == [] && Present(RenderCards(snap, "youtube")) == [];
    assert Present(RenderList(snap, "github")) == [] && Present(RenderList(snap, "hackernews")) == [];
  }

  lemma ForumSection(snap: Snapshot, item: Item)
    requires snap == map["reddit" := [item]]
    ensures RenderList(snap, "reddit") == Some(SingleList("reddit", [Row(1, Normalize(item, "reddit"))]))
  {
    var s := RenderList(snap, "reddit").value;
    assert s.rows == [Row(1, Normalize(item, "reddit"))];
  }

  /** The forum item normalised: the link as target and the default author. */
  lemma ForumPost()
    ensures Normalize(map["title" := JStr("A"), "link" := JStr("http://x")], "reddit")
         == Post(JStr("http://x"), JStr("A"), JStr("Unknown"), JNull, JNull)
  {
    var item := map["title" := JStr("A"), "link" := JStr("http://x")];
    var p := JObj(item);
    assert Payload(item) == p;
    assert Field(p, "url") == JUndefined && Field(p, "link") == JStr("http://x");
    assert Field(p, "creator") == JUndefined && Field(p, "author") == JUndefined && Field(p, "channel") == JUndefined;
    assert Field(p, "stars") == JUndefined && Field(p, "stargazers_count") == JUndefined;
    assert Field(p, "thumbnail") == JUndefined;
  }

  /** Twenty-five repositories: ranks 1 to 5 on the left, 6 to 10 on the right, and
      the remaining fifteen are not shown. */
  lemma TwentyFiveRepositories(snap: Snapshot)
    requires "github" in snap && |snap["github"]| == 25
    ensures var s := RenderList(snap, "github").value;
      && |s.left| == 5 && |s.right| == 5
      && (forall j :: 0 <= j < 5 ==> s.left[j].rank == j + 1 && s.right[j].rank == j + 6)
      && forall row :: row in s.left + s.right ==> row.rank <= 10
  {
    DualColumnsConcatenate(snap);
  }
}

=== FILE: normalizer.dfy ===
/**
 The per-item normaliser written inline in `renderCards` and `renderList`: one
 raw snapshot item and its source id become one display record, through a
 single-level `json` unwrap and JavaScript `||` fallback chains.
 */
module Normalizer {
  import opened Json
  import VideoId

  /** A raw snapshot item: a JSON object given as its property map. */
  type Item = map<string, JVal>

  /** The display record. `url` and `title` may be any value (`undefined` when
      absent); `author` is always truthy; `thumbnail` and `stars` are truthy or `null`. */
  datatype Post = Post(url: JVal, title: JVal, author: JVal, thumbnail: JVal, stars: JVal)

  const AuthorDefault: JVal := JStr("Unknown")
  const ThumbnailPrefix := "https://img.youtube.com/vi/"
  const ThumbnailSuffix := "/hqdefault.jpg"

  /** `item.json || item`: the payload the fields are read from. */
  function Payload(item: Item): (p: JVal)
    ensures Truthy(Get(item, "json")) ==> p == item["json"]
    ensures !Truthy(Get(item, "json")) ==> p == JObj(item)
    ensures Truthy(p)
  {
    Or(Get(item, "json"), JObj(item))
  }

  /** `p.url || p.link || p.repoUrl` */
  function Url(p: JVal): (r: JVal)
    ensures r in [Field(p, "url"), Field(p, "link"), Field(p, "repoUrl")]
    ensures Truthy(r) <==> Truthy(Field(p, "url")) || Truthy(Field(p, "link")) || Truthy(Field(p, "repoUrl"))
  {
    Or(Or(Field(p, "url"), Field(p, "link")), Field(p, "repoUrl"))
  }

  /** `p.creator || p.author || p.channel || "Unknown"` */
  function Author(p: JVal): (r: JVal)
    ensures Truthy(r)
    ensures r in [Field(p, "creator"), Field(p, "author"), Field(p, "channel"), AuthorDefault]
  {
    Or(Or(Or(Field(p, "creator"), Field(p, "author")), Field(p, "channel")), AuthorDefault)
  }

  /** `p.stars || p.stargazers_count || null` */
  function Stars(p: JVal): (r: JVal)
    ensures Truthy(r) <==> Truthy(Field(p, "stars")) || Truthy(Field(p, "stargazers_count"))
    ensures !Truthy(r) ==> r == JNull
  {
    Or(Or(Field(p, "stars"), Field(p, "stargazers_count")), JNull)
  }

  /** The video thumbnail address for a captured id. */
  function VideoThumbnail(id: string): string {
    ThumbnailPrefix + id + ThumbnailSuffix
  }

  /** The part of the thumbnail expression after `p.thumbnail ||`: a video
      thumbnail when the source is `youtube` and the url matches `v=<id>`, the
      `image` field for `devto` when it is truthy, and `null` otherwise. A url
      that is not a string is treated as not matching. */
  function DerivedThumbnail(source: string, url: JVal, image: JVal): (r: JVal)
    ensures Truthy(r) || r == JNull
  {
    if source == "youtube" && url.JStr? && VideoId.Extract(url.s).Some? then
      JStr(VideoThumbnail(VideoId.Extract(url.s).value))
    else if source == "devto" && Truthy(image) then image
    else JNull
  }

  /** `p.thumbnail || <derived>` */
  function Thumbnail(p: JVal, source: string): (r: JVal)
    ensures Truthy(Field(p, "thumbnail")) ==> r == Field(p, "thumbnail")
    ensures Truthy(r) || r == JNull
    ensures source != "youtube" && source != "devto" ==>
      (r == JNull <==> !Truthy(Field(p, "thumbnail")))
  {
    Or(Field(p, "thumbnail"), DerivedThumbnail(source, Url(p), Field(p, "image")))
  }

  /** The normaliser: every field is read from the unwrapped payload. */
  function Normalize(item: Item, source: string): (r: Post)
    ensures Truthy(r.author)
    ensures Truthy(r.thumbnail) || r.thumbnail == JNull
    ensures Truthy(r.stars) || r.stars == JNull
    ensures r.title == Field(Payload(item), "title")
  {
    var p := Payload(item);
    Post(Url(p), Field(p, "title"), Author(p), Thumbnail(p, source), Stars(p))
  }

  // ---------------------------------------------------------------------------
  // The accessor table: each canonical field as an ordered candidate list plus
  // what the chain yields when no candidate is truthy.
  // ---------------------------------------------------------------------------

  const UrlCandidates := ["url", "link"]
  const UrlLast := "repoUrl"
  const AuthorCandidates := ["creator", "author", "channel"]
  const StarsCandidates := ["stars", "stargazers_count"]

  function Fields(p: JVal, names: seq<string>): (vs: seq<JVal>)
    ensures |vs| == |names|
    ensures forall i :: 0 <= i < |names| ==> vs[i] == Field(p, names[i])
  {
    seq(|names|, i requires 0 <= i < |names| => Field(p, names[i]))
  }

  /** The normaliser restated from the accessor table. */
  function TableNormalize(item: Item, source: string): Post {
    var p := Payload(item);
    var url := FirstTruthy(Fields(p, UrlCandidates), Field(p, UrlLast));
    Post(
      url,
      Field(p, "title"),
      FirstTruthy(Fields(p, AuthorCandidates), AuthorDefault),
      FirstTruthy([Field(p, "thumbnail")], DerivedThumbnail(source, url, Field(p, "image"))),
      FirstTruthy(Fields(p, StarsCandidates), JNull))
  }

  lemma UrlMatchesTable(p: JVal)
    ensures Url(p) == FirstTruthy(Fields(p, UrlCandidates), Field(p, UrlLast))
  {
    OrChain3(Field(p, "url"), Field(p, "link"), Field(p, "repoUrl"));
    assert Fields(p, UrlCandidates) == [Field(p, "url"), Field(p, "link")];
  }

  lemma AuthorMatchesTable(p: JVal)
    ensures Author(p) == FirstTruthy(Fields(p, AuthorCandidates), AuthorDefault)
  {
    OrChain4(Field(p, "creator"), Field(p, "author"), Field(p, "channel"), AuthorDefault);
    assert Fields(p, AuthorCandidates) == [Field(p, "creator"), Field(p, "author"), Field(p, "channel")];
  }

  lemma StarsMatchesTable(p: JVal)
    ensures Stars(p) == FirstTruthy(Fields(p, StarsCandidates), JNull)
  {
    OrChain3(Field(p, "stars"), Field(p, "stargazers_count"), JNull);
    assert Fields(p, StarsCandidates) == [Field(p, "stars"), Field(p, "stargazers_count")];
  }

  /** The inline `||` chains agree with the accessor table on every item and source. */
  lemma NormalizeMatchesTable(item: Item, source: string)
    ensures Normalize(item, source) == TableNormalize(item, source)
  {
    var p := Payload(item);
    UrlMatchesTable(p);
    AuthorMatchesTable(p);
    StarsMatchesTable(p);
    var d := DerivedThumbnail(source, Url(p), Field(p, "image"));
    assert [Field(p, "thumbnail")][1..] == [];
    assert FirstTruthy([Field(p, "thumbnail")], d) == Or(Field(p, "thumbnail"), d);
  }
}

=== FILE: normalizer_laws.dfy ===
/**
 What the normaliser promises its callers: how the `json` wrapper is unwrapped,
 which candidate wins each fallback chain, and when a thumbnail or star count
 is shown.
 */
module NormalizerLaws {
  import opened Json
  import VideoId
  import opened Normalizer

  /** An item with a truthy `json` field is normalised from that field alone:
      any two items that agree on it normalise identically, whatever else they hold. */
  lemma WrapperHidesOuterFields(a: Item, b: Item, source: string)
    requires Truthy(Get(a, "json")) && Get(a, "json") == Get(b, "json")
    ensures Normalize(a, source) == Normalize(b, source)
  {
    assert Payload(a) == Payload(b);
  }

  /** Wrapping is transparent: `{json: X}` normalises like `X` itself, provided `X`
      does not carry a truthy `json` of its own (the unwrap is single-level). */
  lemma WrapIsTransparent(x: Item, wrapper: Item, source: string)
    requires Get(wrapper, "json") == JObj(x)
    requires !Truthy(Get(x, "json"))
    ensures Normalize(wrapper, source) == Normalize(x, source)
  {
    assert Payload(wrapper) == JObj(x) == Payload(x);
  }

  /** The unwrap is single-level: `{json: {json: Y}}` reads its fields from `{json: Y}`,
      so it normalises like the once-wrapped `{json: Y}` is read, not like `Y`. */
  lemma UnwrapIsSingleLevel(inner: Item, wrapper: Item, source: string)
    requires Get(wrapper, "json") == JObj(inner)
    ensures Normalize(wrapper, source).title == Get(inner, "title")
  {
    assert Payload(wrapper) == JObj(inner);
  }

  /** Every chain of the accessor table takes its first truthy candidate; only when
      all candidates are falsy does it fall to the last value. */
  lemma FallbackPrecedence(item: Item, source: string)
    ensures var p, r := Payload(item), Normalize(item, source);
      && (forall i :: FirstTruthyAt(Fields(p, UrlCandidates), i) ==> r.url == Field(p, UrlCandidates[i]))
      && ((forall i :: 0 <= i < |UrlCandidates| ==> !Truthy(Field(p, UrlCandidates[i]))) ==> r.url == Field(p, UrlLast))
      && (forall i :: FirstTruthyAt(Fields(p, AuthorCandidates), i) ==> r.author == Field(p, AuthorCandidates[i]))
      && ((forall i :: 0 <= i < |AuthorCandidates| ==> !Truthy(Field(p, AuthorCandidates[i]))) ==> r.author == AuthorDefault)
      && (forall i :: FirstTruthyAt(Fields(p, StarsCandidates), i) ==> r.stars == Field(p, StarsCandidates[i]))
      && ((forall i :: 0 <= i < |StarsCandidates| ==> !Truthy(Field(p, StarsCandidates[i]))) ==> r.stars == JNull)
  {
    NormalizeMatchesTable(item, source);
  }

  /** The url chain by name: `url`, then `link`, then `repoUrl` as it is. An empty
      string in `url` is falsy, so it falls through to `link`. */
  lemma UrlPrecedence(item: Item, source: string)
    ensures var p, r := Payload(item), Normalize(item, source);
      && (Truthy(Field(p, "url")) ==> r.url == Field(p, "url"))
      && (!Truthy(Field(p, "url")) && Truthy(Field(p, "link")) ==> r.url == Field(p, "link"))
      && (!Truthy(Field(p, "url")) && !Truthy(Field(p, "link")) ==> r.url == Field(p, "repoUrl"))
  {
    var p := Payload(item);
    FallbackPrecedence(item, source);
    if !Truthy(Field(p, "url")) && Truthy(Field(p, "link")) {
      assert FirstTruthyAt(Fields(p, UrlCandidates), 1);
    } else if Truthy(Field(p, "url")) {
      assert FirstTruthyAt(Fields(p, UrlCandidates), 0);
    }
  }

  /** The author is never falsy; it is `"Unknown"` exactly when none of `creator`,
      `author`, `channel` is truthy, unless one of them literally reads `"Unknown"`. */
  lemma AuthorDefaulting(item: Item, source: string)
    ensures var p, r := Payload(item), Normalize(item, source);
      && Truthy(r.author)
      && (r.author.JStr? ==> r.author.s != "")
      && ((!Truthy(Field(p, "creator")) && !Truthy(Field(p, "author")) && !Truthy(Field(p, "channel")))
          <==> r.author == AuthorDefault
               && !(Field(p, "creator") == AuthorDefault || Field(p, "author") == AuthorDefault || Field(p, "channel") == AuthorDefault))
  {
  }

  /** The stars are shown exactly when `stars` or `stargazers_count` is truthy; a
      count of zero is therefore hidden. */
  lemma StarsShownIffTruthy(item: Item, source: string)
    ensures var p, r := Payload(item), Normalize(item, source);
      Truthy(r.stars) <==> Truthy(Field(p, "stars")) || Truthy(Field(p, "stargazers_count"))
    ensures var p, r := Payload(item), Normalize(item, source);
      r.stars == JNull <==> !Truthy(Field(p, "stars")) && !Truthy(Field(p, "stargazers_count"))
  {
  }

  /** The four thumbnail rules, in order. */
  lemma ThumbnailRules(item: Item, source: string)
    ensures var p, r := Payload(item), Normalize(item, source);
      var url := r.url;
      && (Truthy(Field(p, "thumbnail")) ==> r.thumbnail == Field(p, "thumbnail"))
      && (!Truthy(Field(p, "thumbnail")) && source == "youtube" && url.JStr? && VideoId.Extract(url.s).Some? ==>
            var id := VideoId.Extract(url.s).value;
            && r.thumbnail == JStr("https://img.youtube.com/vi/" + id + "/hqdefault.jpg")
            && id != "" && '&' !in id)
      && (!Truthy(Field(p, "thumbnail")) && source == "youtube" && !(url.JStr? && VideoId.Extract(url.s).Some?) ==>
            r.thumbnail == JNull)
      && (!Truthy(Field(p, "thumbnail")) && source == "devto" && Truthy(Field(p, "image")) ==>
            r.thumbnail == Field(p, "image"))
      && (!Truthy(Field(p, "thumbnail")) && source != "youtube" && !(source == "devto" && Truthy(Field(p, "image"))) ==>
            r.thumbnail == JNull)
  {
  }

  /** A video item whose url is a watch url and which has no thumbnail of its own
      gets the templated thumbnail for the id in the url. */
  lemma VideoThumbnailExample()
    ensures Normalize(map["url" := JStr("watch?v=abc123")], "youtube").thumbnail
         == JStr("https://img.youtube.com/vi/abc123/hqdefault.jpg")
  {
    var item := map["url" := JStr("watch?v=abc123")];
    var p := JObj(item);
    assert Payload(item) == p;
    assert Field(p, "thumbnail") == JUndefined && Field(p, "image") == JUndefined;
    assert Url(p) == JStr("watch?v=abc123");
    WatchThumbnail();
    ThumbnailLiteral();
  }

  /** The derived thumbnail of the watch url `watch?v=abc123`. */
  lemma WatchThumbnail()
    ensures DerivedThumbnail("youtube", JStr("watch?v=abc123"), JUndefined) == JStr(VideoThumbnail("abc123"))
  {
    VideoId.WatchUrl();
  }

  /** The templated address for the id `abc123`, spelled out. */
  lemma ThumbnailLiteral()
    ensures VideoThumbnail("abc123") == "https://img.youtube.com/vi/abc123/hqdefault.jpg"
  {
  }

  /** A video url with no `v=` parameter and no thumbnail field gives `null`. */
  lemma VideoWithoutIdExample()
    ensures Normalize(map["url" := JStr("youtu.be/abc")], "youtube").thumbnail == JNull
  {
    var item := map["url" := JStr("youtu.be/abc")];
    var p := JObj(item);
    assert Payload(item) == p;
    assert Field(p, "thumbnail") == JUndefined;
    assert Url(p) == JStr("youtu.be/abc");
    VideoId.NoParameter();
  }
}

=== FILE: optional.dfy ===
/** A value that may be absent: a missing snapshot, a source without a
    template, a url without a video id, a hidden status line. */
module Optional {

  datatype Option<+T> = None | Some(value: T)
}

=== FILE: registry.dfy ===
/**
 The static per-source configuration of the page: colour gradient, icon,
 caption, section heading and which layout template renders the source.
 */
module Registry {
  import opened Optional

  /** The sources the page renders, in page order. */
  const Sources: seq<string> := ["devto", "youtube", "github", "reddit", "hackernews"]

  /** The sources whose icon is an image file under `/logos/`. */
  const LogoSources: set<string> := {"devto", "reddit", "hackernews"}

  // ---------------------------------------------------------------------------
  // Colour
  // ---------------------------------------------------------------------------

  const Colors: map<string, string> := map[
    "devto" := "from-purple-500 to-pink-500",
    "youtube" := "from-red-500 to-red-600",
    "github" := "from-gray-700 to-gray-900",
    "reddit" := "from-orange-500 to-red-500",
    "hackernews" := "from-orange-600 to-yellow-500"
  ]

  const DefaultColor := "from-blue-500 to-purple-500"

  /** `getSourceColor`: the configured gradient, or the default for any other id.
      The default is not the colour of any configured source, so the result tells
      configured and unconfigured ids apart. */
  function Color(source: string): (r: string)
    ensures r == DefaultColor <==> source !in Sources
    ensures source in Sources ==> r == Colors[source]
  {
    if source in Colors then Colors[source] else DefaultColor
  }

  /** No two sources share a colour. */
  lemma ColorsDistinct(a: string, b: string)
    requires a in Sources && b in Sources && a != b
    ensures Color(a) != Color(b)
  {
  }

  // ---------------------------------------------------------------------------
  // Icon
  // ---------------------------------------------------------------------------

  datatype Glyph = YoutubeGlyph | GithubGlyph | TrendingUpGlyph

  /** A source icon: an image file or a built-in glyph. */
  datatype Icon = Logo(path: string) | Builtin(glyph: Glyph)

  /** `getSourceIcon`: the logo file when one is configured, else the platform
      glyph, else the generic trending glyph. */
  function SourceIcon(source: string): (r: Icon)
    ensures r.Logo? <==> source in LogoSources
    ensures r.Logo? ==> r.path == "/logos/" + source + ".svg"
    ensures r == Builtin(TrendingUpGlyph) <==> source !in Sources
    ensures r == Builtin(YoutubeGlyph) <==> source == "youtube"
    ensures r == Builtin(GithubGlyph) <==> source == "github"
  {
    if source == "devto" || source == "reddit" || source == "hackernews" then
      Logo("/logos/" + source + ".svg")
    else if source == "youtube" then Builtin(YoutubeGlyph)
    else if source == "github" then Builtin(GithubGlyph)
    else Builtin(TrendingUpGlyph)
  }

  /** No two sources share an icon: the logo files differ by name, and the two
      glyphs belong to different sources. */
  lemma IconsDistinct(a: string, b: string)
    requires a in Sources && b in Sources && a != b
    ensures SourceIcon(a) != SourceIcon(b)
  {
    if a in LogoSources && b in LogoSources {
      var pa, pb := "/logos/" + a + ".svg", "/logos/" + b + ".svg";
      assert a == pa[7..|pa| - 4] && b == pb[7..|pb| - 4];
    }
  }

  // ---------------------------------------------------------------------------
  // Captions: each template prints a fixed caption for the sources it knows and
  // nothing for the others.
  // ---------------------------------------------------------------------------

  /** The caption line of the card template. */
  function CardCaption(source: string): (r: string)
    ensures r != "" <==> source == "devto" || source == "youtube"
  {
    (if source == "devto" then "Top articles from the developer community" else "")
    + (if source == "youtube" then "Trending tech videos and tutorials" else "")
  }

  /** The caption line of both list templates. */
  function ListCaption(source: string): (r: string)
    ensures r != "" <==> source == "github" || source == "reddit" || source == "hackernews"
  {
    (if source == "github" then "Trending repositories and open source projects" else "")
    + (if source == "reddit" then "Popular discussions from tech communities" else "")
    + (if source == "hackernews" then "Top stories from Hacker News" else "")
  }

  /** The two card sources get different captions. */
  lemma CardCaptionsDistinct()
    ensures CardCaption("devto") != CardCaption("youtube")
  {
    assert |CardCaption("devto")| == 41;
    assert |CardCaption("youtube")| == 34;
  }

  /** The three list sources get pairwise different captions. */
  lemma ListCaptionsDistinct()
    ensures ListCaption("github") != ListCaption("reddit")
    ensures ListCaption("github") != ListCaption("hackernews")
    ensures ListCaption("reddit") != ListCaption("hackernews")
  {
    assert |ListCaption("github")| == 46;
    assert |ListCaption("reddit")| == 41;
    assert |ListCaption("hackernews")| == 28;
  }

  // ---------------------------------------------------------------------------
  // Heading
  // ---------------------------------------------------------------------------

  predicate IsLowerAscii(c: char) {
    'a' <= c <= 'z'
  }

  /** `toUpperCase` on one character, for the ASCII letters. */
  function UpperAscii(c: char): (u: char)
    ensures !IsLowerAscii(u)
    ensures IsLowerAscii(c) ==> u as int == c as int - 32
    ensures !IsLowerAscii(c) ==> u == c
  {
    if IsLowerAscii(c) then (c as int - 32) as char else c
  }

  /** `s.charAt(0).toUpperCase() + s.slice(1)`: the heading of a section. */
  function Heading(s: string): (r: string)
    ensures |r| == |s|
    ensures |s| > 0 ==> r[0] == UpperAscii(s[0]) && r[1..] == s[1..]
  {
    if s == "" then "" else [UpperAscii(s[0])] + s[1..]
  }

  /** Capitalising a heading again changes nothing. */
  lemma HeadingIdempotent(s: string)
    ensures Heading(Heading(s)) == Heading(s)
  {
    if s != "" {
      var h := Heading(s);
      assert Heading(h) == [UpperAscii(h[0])] + h[1..];
    }
  }

  /** The heading leaves the id unchanged exactly when it does not start with a
      lower-case letter. */
  lemma HeadingFixedPoints(s: string)
    ensures Heading(s) == s <==> s == "" || !IsLowerAscii(s[0])
  {
    if s != "" && IsLowerAscii(s[0]) {
      assert Heading(s)[0] != s[0];
    }
  }

  /** The five headings as the page shows them; the ids are capitalised, not
      respelled (`Hackernews`, `Devto`). */
  lemma SourceHeadings()
    ensures Heading("devto") == "Devto"
    ensures Heading("youtube") == "Youtube"
    ensures Heading("github") == "Github"
    ensures Heading("reddit") == "Reddit"
    ensures Heading("hackernews") == "Hackernews"
  {
    assert UpperAscii('d') == 'D' && UpperAscii('y') == 'Y' && UpperAscii('g') == 'G';
    assert UpperAscii('r') == 'R' && UpperAscii('h') == 'H';
  }

  // ---------------------------------------------------------------------------
  // Layout kinds
  // ---------------------------------------------------------------------------

  datatype LayoutKind = CardGrid | ListSingleColumn | ListDualColumn

  /** The template the page uses for each of its sources: `renderCards` for
      `devto` and `youtube`, `renderList` for the others, of which `github`
      alone gets two columns. Ids the page does not render have none. */
  function LayoutOf(source: string): (r: Option<LayoutKind>)
    ensures r.Some? <==> source in Sources
    ensures r == Some(ListDualColumn) <==> source == "github"
  {
    if source == "devto" || source == "youtube" then Some(CardGrid)
    else if source == "github" then Some(ListDualColumn)
    else if source == "reddit" || source == "hackernews" then Some(ListSingleColumn)
    else None
  }
}

=== FILE: subscription.dfy ===
/**
 The subscription controller: the email field, the daily/weekly toggle, the
 subscribe handler and the status line that clears itself 3000 ms after each
 submit. Time is an abstract clock advanced by `Advance`; each scheduled reset
 is kept as the clock value at which it fires. The subscriber store is not part
 of the model: a submit receives the store's outcome as a boolean, and the
 requests sent to the store are recorded in `inserts`.
 */
module Subscription {
  import opened Optional

  datatype Status = Idle | Success | Error

  datatype Frequency = Daily | Weekly

  /** One row sent to the `subscribers` store. */
  datatype Insert = Insert(email: string, preference: Frequency)

  datatype Controller = Controller(
    status: Status,
    email: string,
    frequency: Frequency,
    now: nat,
    resets: seq<nat>,
    inserts: seq<Insert>)

  /** The delay of every status reset, in milliseconds. */
  const ResetDelay: nat := 3000

  /** Every scheduled reset lies in the coming `ResetDelay`, and a visible status
      always has a reset pending that will clear it. */
  ghost predicate Inv(c: Controller) {
    && (forall i :: 0 <= i < |c.resets| ==> c.now < c.resets[i] <= c.now + ResetDelay)
    && (c.status != Idle ==> |c.resets| > 0)
  }

  /** The page as first rendered: empty field, weekly, no status. */
  function Init(): (c: Controller)
    ensures Inv(c)
    ensures c.status == Idle && c.frequency == Weekly && c.email == ""
  {
    Controller(Idle, "", Weekly, 0, [], [])
  }

  /** The email passes the handler's check: `!email || !email.includes("@")` rejects it. */
  predicate ValidEmail(email: string) {
    email != "" && '@' in email
  }

  /** The emptiness test is subsumed by the `@` test. */
  lemma ValidEmailIsAtSign(email: string)
    ensures ValidEmail(email) <==> '@' in email
  {
  }

  /** Typing into the email field. */
  function EditEmail(c: Controller, text: string): (r: Controller)
    ensures r.email == text
    ensures r.(email := c.email) == c
  {
    c.(email := text)
  }

  /** `frequency === "daily" ? "weekly" : "daily"` */
  function Toggle(f: Frequency): (r: Frequency)
    ensures r != f
  {
    if f == Daily then Weekly else Daily
  }

  /** The frequency switch. */
  function ToggleFrequency(c: Controller): (r: Controller)
    ensures r.frequency != c.frequency
    ensures r.(frequency := c.frequency) == c
  {
    c.(frequency := Toggle(c.frequency))
  }

  /** Toggling twice restores the frequency. */
  lemma ToggleInvolution(c: Controller)
    ensures ToggleFrequency(ToggleFrequency(c)) == c
  {
  }

  /** `handleSubscribe`, with the store's answer given as `storeOk`. An invalid
      email is rejected without a request to the store; a valid one is sent with
      the current frequency, and success clears the field. Every path schedules a
      reset `ResetDelay` from now. */
  function Submit(c: Controller, storeOk: bool): (r: Controller)
    ensures r.status != Idle
    ensures r.now == c.now && r.frequency == c.frequency
    ensures r.resets == c.resets + [c.now + ResetDelay]
    ensures !ValidEmail(c.email) ==> r.status == Error && r.email == c.email && r.inserts == c.inserts
    ensures ValidEmail(c.email) ==> r.inserts == c.inserts + [Insert(c.email, c.frequency)]
    ensures ValidEmail(c.email) && storeOk ==> r.status == Success && r.email == ""
    ensures ValidEmail(c.email) && !storeOk ==> r.status == Error && r.email == c.email
  {
    var reset := c.resets + [c.now + ResetDelay];
    if !ValidEmail(c.email) then
      c.(status := Error, resets := reset)
    else
      var sent := c.inserts + [Insert(c.email, c.frequency)];
      if storeOk then
        c.(status := Success, email := "", resets := reset, inserts := sent)
      else
        c.(status := Error, resets := reset, inserts := sent)
  }

  /** The resets still pending once the clock reads `t`. */
  function PendingAfter(resets: seq<nat>, t: nat): (r: seq<nat>)
    ensures forall x :: x in r <==> x in resets && x > t
    ensures |r| <= |resets|
    ensures |r| == |resets| <==> forall i :: 0 <= i < |resets| ==> resets[i] > t
  {
    if resets == [] then []
    else if resets[0] > t then [resets[0]] + PendingAfter(resets[1..], t)
    else PendingAfter(resets[1..], t)
  }

  /** The clock moves forward by `dt`; every reset that falls due sets the status
      to idle and is removed. */
  function Advance(c: Controller, dt: nat): (r: Controller)
    ensures r.now == c.now + dt
    ensures forall x :: x in r.resets <==> x in c.resets && x > c.now + dt
    ensures r.status == Idle <==> c.status == Idle || exists i :: 0 <= i < |c.resets| && c.resets[i] <= c.now + dt
    ensures r.status != Idle ==> r.status == c.status
    ensures r.email == c.email && r.frequency == c.frequency && r.inserts == c.inserts
  {
    var t := c.now + dt;
    var pending := PendingAfter(c.resets, t);
    var fired := |pending| < |c.resets|;
    c.(status := if fired then Idle else c.status, now := t, resets := pending)
  }

  datatype Event = Edit(text: string) | Flip | Subscribe(storeOk: bool) | Wait(dt: nat)

  function Step(c: Controller, e: Event): Controller {
    match e
    case Edit(text) => EditEmail(c, text)
    case Flip => ToggleFrequency(c)
    case Subscribe(ok) => Submit(c, ok)
    case Wait(dt) => Advance(c, dt)
  }

  function Run(c: Controller, events: seq<Event>): Controller
    decreases |events|
  {
    if events == [] then c else Run(Step(c, events[0]), events[1..])
  }

  /** Every event keeps the invariant. */
  lemma StepKeepsInv(c: Controller, e: Event)
    requires Inv(c)
    ensures Inv(Step(c, e))
  {
    match e
    case Edit(_) =>
    case Flip =>
    case Subscribe(ok) =>
      var r := Submit(c, ok);
      assert forall i :: 0 <= i < |c.resets| ==> r.resets[i] == c.resets[i];
    case Wait(dt) =>
      var r := Advance(c, dt);
      forall i | 0 <= i < |r.resets|
        ensures r.now < r.resets[i] <= r.now + ResetDelay
      {
        assert r.resets[i] in r.resets;
        var k :| 0 <= k < |c.resets| && c.resets[k] == r.resets[i];
      }
      if r.status != Idle {
        assert c.status != Idle;
        assert forall i :: 0 <= i < |c.resets| ==> c.resets[i] > c.now + dt;
        assert c.resets[0] in r.resets;
      }
  }

  /** Every state reachable from the initial page satisfies the invariant. */
  lemma {:induction false} RunKeepsInv(c: Controller, events: seq<Event>)
    requires Inv(c)
    ensures Inv(Run(c, events))
    decreases |events|
  {
    if events != [] {
      StepKeepsInv(c, events[0]);
      RunKeepsInv(Step(c, events[0]), events[1..]);
    }
  }

  lemma Reachable(events: seq<Event>)
    ensures Inv(Run(Init(), events))
  {
    RunKeepsInv(Init(), events);
  }

  lemma HeadIsMember(s: seq<nat>)
    requires |s| > 0
    ensures s[0] in s
  {
  }

  /** In any reachable state, waiting `ResetDelay` with no other input leaves no
      status visible and no reset pending. */
  lemma StatusClearsWithinDelay(c: Controller)
    requires Inv(c)
    ensures Advance(c, ResetDelay).status == Idle
    ensures Advance(c, ResetDelay).resets == []
  {
    var r := Advance(c, ResetDelay);
    if |r.resets| > 0 {
      HeadIsMember(r.resets);
      assert false;
    }
    if c.status != Idle {
      assert c.resets[0] <= c.now + ResetDelay;
    }
  }

  /** After a submit, the status it set is the one shown until the first pending
      reset falls due: with no older reset pending, it stays for the whole delay. */
  lemma StatusHeldForDelay(c: Controller, storeOk: bool, dt: nat)
    requires Inv(c) && c.resets == []
    requires dt < ResetDelay
    ensures Advance(Submit(c, storeOk), dt).status == Submit(c, storeOk).status
    ensures Advance(Submit(c, storeOk), ResetDelay).status == Idle
  {
    var s := Submit(c, storeOk);
    assert s.resets == [c.now + ResetDelay];
  }

  /** A submit that fails validation never reaches the store; a valid one always
      sends exactly one request, whatever the store answers. */
  lemma ValidationGuardsStore(c: Controller, storeOk: bool)
    ensures |Submit(c, storeOk).inserts| == |c.inserts| + (if '@' in c.email then 1 else 0)
  {
  }

  /** The status line: the success text names the frequency selected at the time
      it is displayed; both failure kinds share one text. */
  function StatusMessage(c: Controller): (r: Option<string>)
    ensures r.None? <==> c.status == Idle
  {
    match c.status
    case Idle => None
    case Success =>
      Some("Successfully subscribed for " + (if c.frequency == Daily then "daily" else "weekly") + " updates!")
    case Error => Some("Please enter a valid email address.")
  }

  /** A rejected email and a store failure cannot be told apart on the page. */
  lemma FailuresShareMessage(c: Controller, d: Controller)
    requires !ValidEmail(c.email) && ValidEmail(d.email)
    ensures StatusMessage(Submit(c, true)) == StatusMessage(Submit(d, false))
  {
  }

  /** Flipping the switch after a successful submit changes the frequency named by
      the success message, though the request sent used the earlier one. */
  lemma SuccessMessageReadsLiveFrequency(c: Controller)
    requires ValidEmail(c.email)
    ensures var s := ToggleFrequency(Submit(c, true));
      && StatusMessage(s) != StatusMessage(Submit(c, true))
      && s.inserts[|s.inserts| - 1].preference != s.frequency
  {
    var m1 := "Successfully subscribed for " + (if c.frequency == Daily then "daily" else "weekly") + " updates!";
    var m2 := "Successfully subscribed for " + (if c.frequency == Daily then "weekly" else "daily") + " updates!";
    assert m1[28] != m2[28];
  }

  /** Overlapping submits: an invalid submit at time 0, a valid one at 1000. The
      success status is cleared by the first submit's reset at 3000, not by its
      own at 4000, so it is shown for 2000 ms only. */
  lemma EarlierResetCutsLaterStatus()
    ensures var c1 := Submit(Init(), true);
      var c2 := Submit(EditEmail(Advance(c1, 1000), "a@b.com"), true);
      && c1.status == Error
      && c2.status == Success
      && Advance(c2, 1999).status == Success
      && Advance(c2, 2000).status == Idle
      && Advance(c2, 2000).resets == [4000]
  {
    var c1 := Submit(Init(), true);
    assert c1.resets == [3000];
    var c2 := Submit(EditEmail(Advance(c1, 1000), "a@b.com"), true);
    assert '@' in "a@b.com" by { assert "a@b.com"[1] == '@'; }
    assert c2.resets == [3000, 4000];
    var d := Advance(c2, 2000);
    assert PendingAfter([4000], 3000) == [4000] by {
      assert [4000][1..] == [];
    }
    assert PendingAfter([3000, 4000], 3000) == [4000] by {
      assert [3000, 4000][1..] == [4000];
    }
  }
}

=== FILE: video_id.dfy ===
/**
 The video id the page extracts from a video-platform url with the regular
 expression `/v=([^&]+)/`: the leftmost `v=` that is followed by at least one
 character other than `&`, and then the longest run of such characters. The
 expression is not anchored to a query parameter, so it also matches inside
 names such as `dev=1`.
 */
module VideoId {
  import opened Optional

  /** The expression can match starting at position `i`. */
  predicate MatchAt(s: string, i: int) {
    0 <= i && i + 2 < |s| && s[i] == 'v' && s[i + 1] == '=' && s[i + 2] != '&'
  }

  /** `i` is the position the regular-expression engine reports: the leftmost match. */
  ghost predicate LeftmostMatch(s: string, i: int) {
    MatchAt(s, i) && forall k :: 0 <= k < i ==> !MatchAt(s, k)
  }

  /** Length of the greedy run `[^&]*` starting at `j`. */
  function RunLength(s: string, j: nat): (n: nat)
    requires j <= |s|
    ensures j + n <= |s|
    ensures forall k :: j <= k < j + n ==> s[k] != '&'
    ensures j + n == |s| || s[j + n] == '&'
    decreases |s| - j
  {
    if j == |s| || s[j] == '&' then 0 else 1 + RunLength(s, j + 1)
  }

  /** The leftmost match position at or after `i`, if any. */
  function FindFrom(s: string, i: nat): (r: Option<nat>)
    ensures r.Some? ==> i <= r.value && MatchAt(s, r.value)
    ensures r.Some? ==> forall k :: i <= k < r.value ==> !MatchAt(s, k)
    ensures r.None? ==> forall k :: i <= k ==> !MatchAt(s, k)
    decreases |s| - i
  {
    if i + 2 >= |s| then None
    else if MatchAt(s, i) then Some(i)
    else FindFrom(s, i + 1)
  }

  /** `url.match(/v=([^&]+)/)?.[1]`: the first capture group, or nothing when the
      expression does not match. */
  function Extract(url: string): (r: Option<string>)
    ensures r.None? <==> forall i :: !MatchAt(url, i)
    ensures r.Some? ==> |r.value| > 0 && '&' !in r.value
    ensures r.Some? ==>
      exists i :: LeftmostMatch(url, i)
        && i + 2 + |r.value| <= |url|
        && url[i..i + 2 + |r.value|] == "v=" + r.value
        && (i + 2 + |r.value| == |url| || url[i + 2 + |r.value|] == '&')
  {
    match FindFrom(url, 0)
    case None => None
    case Some(i) =>
      var n := RunLength(url, i + 2);
      var id := url[i + 2..i + 2 + n];
      assert id[0] == url[i + 2];
      assert forall c :: c in id ==> c != '&';
      assert url[i..i + 2 + n] == "v=" + id;
      assert LeftmostMatch(url, i);
      Some(id)
  }

  /** A watch url: the id after `v=` is captured up to the end of the url. */
  lemma WatchUrl()
    ensures Extract("watch?v=abc123") == Some("abc123")
  {
    var s := "watch?v=abc123";
    assert MatchAt(s, 6);
    assert forall k :: 0 <= k < 6 ==> !MatchAt(s, k);
    assert FindFrom(s, 0) == Some(6);
    assert RunLength(s, 8) == 6;
    assert s[8..14] == "abc123";
  }

  /** The capture stops at the next `&`. */
  lemma StopsAtAmpersand()
    ensures Extract("?v=ab&t=9") == Some("ab")
  {
    var s := "?v=ab&t=9";
    assert MatchAt(s, 1);
    assert !MatchAt(s, 0);
    assert FindFrom(s, 0) == Some(1);
    assert RunLength(s, 3) == 2;
    assert s[3..5] == "ab";
  }

  /** The expression is not a query-parameter parse: `dev=1` yields the id `1`. */
  lemma MatchesInsideParameterName()
    ensures Extract("?dev=1") == Some("1")
  {
    var s := "?dev=1";
    assert MatchAt(s, 3);
    assert forall k :: 0 <= k < 3 ==> !MatchAt(s, k);
    assert FindFrom(s, 0) == Some(3);
    assert RunLength(s, 5) == 1;
    assert s[5..6] == "1";
  }

  /** A `v=` immediately followed by `&` is skipped in favour of a later one. */
  lemma SkipsEmptyValue()
    ensures Extract("v=&v=x") == Some("x")
  {
    var s := "v=&v=x";
    assert !MatchAt(s, 0);
    assert MatchAt(s, 3);
    assert forall k :: 0 <= k < 3 ==> !MatchAt(s, k);
    assert FindFrom(s, 0) == Some(3);
    assert RunLength(s, 5) == 1;
    assert s[5..6] == "x";
  }

  /** A url without `v=` yields nothing. */
  lemma NoParameter()
    ensures Extract("youtu.be/abc").None?
  {
    var s := "youtu.be/abc";
    assert forall i :: !MatchAt(s, i);
  }
}
